=== FILE: README.md ===
# Media download bot: the deterministic core

A chat bot receives a link, probes it for a title and duration, offers
two format buttons ("vid" and "aud"), downloads the media in the chosen
mode with an extraction library, uploads the result with a progress
display, and removes the local files. The network parts are glue. This
project models the decisions the bot's own code makes, and proves
properties about them:

- **Duration display** (`Clock`). `format_time` turns whole seconds into
  `MM:SS` using Python's floor `divmod` and `02d` padding. A missing or zero
  duration shows as `00:00`. The independent parser `ParseClock` reads a
  display back, and the round trip holds for every non-negative duration.
- **Upload progress** (`Progress`). The throttle decides whether a callback
  edits the status message. The ten-cell bar it draws has
  `filled = floor(current * 10 / total)`. A callback trace shows which
  callbacks get past the throttle.
- **Session store** (`Sessions`). A map from user id to the last accepted
  link. It is written only for text containing `http`, and only after the
  probe succeeds. The last write wins, and a read never removes the entry.
- **Artifact paths** (`Paths`). The media path is the `os.path.splitext`
  stem of the prepared filename plus `.mp3` for the exact mode `aud`, and
  `.mp4` for any other mode. The thumbnail is the first of `.webp`, `.jpg`
  and `.png` next to it that exists.
- **Format-choice handler** (`Bot`). It handles an expired session, runs
  the download engine, shows a download error, uploads, and cleans up. The
  filesystem is a `set<string>`. The extraction library's result and the
  success of each client call are inputs.

Timestamps are integer milliseconds, so the three-second interval is
3000. The message text, probe results, engine results and client call
outcomes are parameters. Nothing here reads a clock, the network or a
disk.

Three places where the code does less than its own text suggests. The
model follows the code:

- The comment at main.py:28 says "Update every 3 seconds". The guard at
  main.py:29 measures from the *start* of the upload, not from the last
  update. After the first three seconds, every callback edits
  (`Progress.LateCallbacksAllPass`).
- The block headed "Clean up" (main.py:133-135) comes after the `try`, not
  in a `finally`. If reporting the upload error raises as well, the handler
  exits and the files stay (`Bot.ReportFailureSkipsCleanup`). When the error
  report goes through, cleanup does not depend on the upload outcome
  (`Bot.CleanupWhateverTheUpload`).
- The keyboard at main.py:74-75 offers two tags, `vid` and `aud`. The engine
  sends every mode other than `vid` down the audio path, but names the file
  `.mp3` only for `aud` (`Bot.UnknownModeMismatch`).

## Model

| member | source | states |
|---|---|---|
| Text.Contains | main.py:54 | `sub in s` holds exactly when some position of `s` starts an occurrence of `sub` |
| Text.LastIndexOf | main.py:171 | the `rfind` inside `splitext`: -1 when the character does not occur, otherwise an index holding it with no occurrence after it |
| Text.Repeat | main.py:38 | string times a count: `n` copies of the character, and the empty string for a count of zero or less |
| Wrappers.Field.Get | main.py:63-64 | `dict.get(key, default)`: the default for a missing key, None for a key holding None, the value otherwise |
| Wrappers.ShowText | main.py:70 | an f-string shows a string as itself and None as "None" |
| Clock.Pad2 | main.py:193 | `02d` on a non-negative number gives at least two digits, exactly two below 100, and they read back as the number; on a negative number it gives '-' followed by the digits of its magnitude |
| Clock.FormatTime | main.py:190-193 | the display is "00:00" exactly for a missing or zero duration; it always ends in ':' and two digits that read back as the floor remainder `d % 60`; for `d >= 0` the minutes field reads back as `d // 60`, and a negative duration starts with '-' (its minutes are fixed by `Clock.FormatTimeNegativeMinutes`) |
| Clock.FormatTimeNegativeMinutes | main.py:192-193 | for a negative duration the display is '-' followed by minutes digits that read back as the magnitude of the floor quotient `d // 60` (-5 s gives minutes -1, shown "-1") |
| Clock.Pad2Canonical | main.py:193 | `02d` pads only to width two: from 10 on the field has no leading zero, and a negative number has no '0' after its '-' |
| Clock.FormatTimeCanonical | main.py:192-193 | from 10 minutes on the display does not start with '0' (6000 s is "100:00", not "0100:00"), and a negative display has no '0' after its '-' |
| Clock.FormatTimeRoundTrip | main.py:190-193 | for every duration `d >= 0` (0 and 100+ minutes included), parsing the display gives back `d` |
| Clock.FormatTimeShape | main.py:190-193 | for `1 <= d < 6000` the display has 5 characters with ':' in the middle; the fields are digits that read back as `d / 60` and `d % 60`, and the seconds are below 60 |
| Clock.FormatTimeLong | main.py:190-193 | from 6000 s on, the minutes field grows past two digits (display length at least 6) |
| Clock.FormatTimeMissing | main.py:191 | a missing duration shows as "00:00", the same as zero, and reads back as 0 |
| Clock.FormatTimeInjective | main.py:190-193 | distinct non-negative durations give distinct displays |
| Clock.FormatTimeExamples | main.py:190-193 | 125 s shows as "02:05", 6000 s as "100:00", 1 s as "00:01", and -5 s as "-1:55" (floor `divmod` gives -1 and 55) |
| Progress.FloorDiv | main.py:37 | Python floor division: the quotient `q` has `q*b <= a < q*b + b` for `b > 0`, and the mirror bound for `b < 0` |
| Progress.Suppressed | main.py:29 | the throttle condition: under 3 s since the start and the transfer incomplete |
| Progress.Filled | main.py:32-37 | the fill is the floor of `current * 10 / total`: `f*total <= current*10 < f*total + total` for `total > 0`, and the mirror bound for `total < 0` |
| Progress.Bar | main.py:38 | the bar has `max(f, 0) + max(10 - f, 0)` cells (string times a negative count is empty), and cell `i` is full iff `i < f` |
| Progress.Project | main.py:29-38 | the callback skips exactly when under 3 s have passed since the start and the transfer is incomplete; otherwise it fails with division by zero for `total == 0`, and for `total > 0` it draws the bar of the floored fill |
| Progress.NeverSuppressed | main.py:29-30 | a completed transfer, or any callback 3 s or more after the start, is never throttled |
| Progress.FilledIsFloor | main.py:32-37 | the fill is the unique `f` with `f*total <= current*10 < (f+1)*total` |
| Progress.FilledBounds | main.py:32-38 | for `0 <= current <= total`, `total > 0`, the fill is in 0..10 and equals 10 iff `current == total` |
| Progress.FilledIsPercentDecade | main.py:32-37 | the fill equals the percentage `current*100 // total` divided by ten and rounded down |
| Progress.FilledMonotonic | main.py:37 | more bytes transferred never gives a smaller fill |
| Progress.BarShape | main.py:37-38 | for an in-range transfer the bar has 10 cells, cell `i` is full iff `i` is below the fill and empty otherwise, and the bar is all full iff the transfer is complete |
| Progress.BarOverflow | main.py:37-38 | past completion the bar is only full cells, at least ten of them |
| Progress.Unthrottled | main.py:29-30 | the callbacks that pass the throttle are a selection from the trace, each unsuppressed, and every unsuppressed callback is among them |
| Progress.LateCallbacksAllPass | main.py:27-30 | when every callback comes 3 s or more after the start, all of them pass: the throttle does not track the last edit |
| Progress.BurstAfterThreshold | main.py:27-30 | two callbacks in the same millisecond after the first 3 s both edit |
| Paths.ExtStart | main.py:171 | the extension starts at a dot in the final component, with no dot or '/' after it and some non-dot character before it in that component; when there is none, every dot of the final component has only dots before it (leading dots do not start an extension) |
| Paths.Stem | main.py:171 | `splitext(p)[0]` is a prefix of `p`, and the whole of `p` exactly when there is no extension |
| Paths.Extension | main.py:171 | stem plus extension is the original path, and the extension is empty or one dot followed by neither dots nor separators |
| Paths.SplitAppendedExt | main.py:171 | `root + "." + x` (x without '.' or '/', root's last component not all dots) splits into `root` and `"." + x`: only the last extension is split off |
| Paths.HiddenNameHasNoExt | main.py:171 | a final component that is one leading dot and a dot-free name (like ".bashrc") has no extension, so the stem is the whole path |
| Paths.MediaExt | main.py:169 | the extension is "mp3" exactly for the mode "aud", otherwise "mp4" |
| Paths.MediaPath | main.py:169-171 | the media path is the stem of the prepared filename, a dot, and the mode's extension |
| Paths.MediaPathReplacesExt | main.py:169-171 | for a filename `root.x` the media path is `root.mp3` for "aud" and `root.mp4` for every other mode |
| Paths.ThumbnailCandidates | main.py:176-177 | the probed paths are base + ".webp", ".jpg", ".png", in that order |
| Paths.FirstPresent | main.py:175-179 | the result is None iff no candidate exists; otherwise it is an existing candidate with no existing candidate before it |
| Paths.FindThumbnail | main.py:174-179 | the probing loop with `break` returns the first existing candidate, which is in the filesystem |
| Paths.ThumbnailPreference | main.py:176-179 | an earlier extension always wins: .webp if present, else .jpg, else .png, else none |
| Sessions.Lookup | main.py:88 | `dict.get` gives the stored value for a present key and None for a missing one |
| Sessions.SessionUrl | main.py:88-89 | the handler goes on only with a stored non-empty URL; a missing or empty entry counts as expired |
| Sessions.ReceiveLink | main.py:52-79 | text without "http" is ignored; a failed probe shows its message and leaves the store unchanged; a successful probe stores the text for the user, shows the title ("Video" when the key is missing, "None" when it holds None) and the formatted duration (missing or None both give "00:00"), and offers "vid" and "aud"; other users are never affected |
| Sessions.ReceiveKeepsWellFormed | main.py:54-67 | every stored URL contains "http", before and after any message |
| Sessions.ExpiredIffAbsent | main.py:88-91 | in such a store the "session expired" guard fires exactly when the user has no entry |
| Sessions.ReceiveThenSession | main.py:67 | after an accepted link, the format handler proceeds with exactly that text |
| Sessions.LastWriteWins | main.py:67 | after two accepted links from one user, with another user's message in between, the store holds the second |
| Sessions.RejectedKeepsEarlier | main.py:54-79 | an ignored message or a failed probe leaves the user's earlier link in place |
| Bot.OptionsFor | main.py:150-164 | the video options are chosen exactly for the mode "vid"; every other mode gets the audio options |
| Bot.UnknownModeMismatch | main.py:150-171 | a mode other than "vid" and "aud" gets the audio options but a ".mp4" file name |
| Bot.DownloadEngine | main.py:166-188 | an engine exception becomes an error carrying its message; otherwise the path is the derived media path, the thumbnail is the first existing candidate next to the stem (an existing file with one of the three extensions, or none when none exists), and the title and duration default to "Media" and 0 only for a missing key, a key holding None staying None |
| Bot.Cleanup | main.py:133-135 | after cleanup neither the media path nor a set thumbnail exists, nothing is added, and no other path is removed |
| Bot.UploadFor | main.py:106-126 | the upload is a streamable video for "vid" and a non-streaming audio file for any other mode, with the given path, caption title, thumbnail and duration |
| Bot.EndingOf | main.py:105-131 | the upload is delivered iff send and delete both succeed; the handler raises iff that fails and the error report fails too |
| Bot.ButtonClick | main.py:83-135 | the store is never changed; the session is expired iff no non-empty URL is stored, and then nothing happens; otherwise the stored URL is downloaded; a download error removes nothing; an upload sends the engine result's file, caption title (None shown as "None"), thumbnail and duration in the mode's kind, ends as the client outcomes decide, removes only the media path and thumbnail, and removes both unless the handler raised |
| Bot.ThumbIsNamed | main.py:135 | a thumbnail the engine reports is never an empty (falsy) path |
| Bot.CleanupWhateverTheUpload | main.py:105-135 | when the error report succeeds, a delivered and a failed upload leave the same store and filesystem |
| Bot.ReportFailureSkipsCleanup | main.py:130-135 | a failed upload whose error report also fails leaves every downloaded file on disk |
| Bot.ClickDoesNotConsume | main.py:88 | two presses in a row both proceed, with the same URL |
| Bot.NoLinkNoDownload | main.py:88-91 | a user without an accepted link gets "session expired", with no download and no change of state |
| Bot.LinkThenClick | main.py:88-97 | a press after an accepted link downloads that link |
| Bot.DeliveredClick | main.py:104-135 | on the success path the result is the stored URL's upload, marked delivered, with the media and thumbnail cleaned up |
| Bot.ScenarioLink | main.py:52-77 | the link "https://example.com/watch?v=abc" with 125 s shows "Test Video" with "02:05" and is stored |
| Bot.ScenarioStem | main.py:171 | "/tmp/dl/abc.webm" has the stem "/tmp/dl/abc" |
| Bot.ScenarioDownload | main.py:166-186 | in audio mode, with "/tmp/dl/abc.webp" on disk, "/tmp/dl/abc.webm" gives the path "/tmp/dl/abc.mp3", that thumbnail, and the reported title and duration |
| Bot.AudioScenario | main.py:83-135 | pressing "aud" for that link uploads "/tmp/dl/abc.mp3" as audio with the WebP thumbnail, then removes both and nothing else |

## Left out

- Chat client calls (replies, edits, sends, deletion, callback answers) are network I/O. Only the success of the send, the status-message deletion and the upload-error edit are inputs. The other calls are assumed to succeed: the reply at main.py:57, the edits at main.py:69-77, 79, 93 and 100, and the callback answer at main.py:90.
- The "start" command filter at main.py:51 belongs to the chat library's dispatch. The model takes the text of a message the handler received.
- The extraction library (`extract_info`, `prepare_filename`, the option dictionaries with format strings and ffmpeg arguments) is foreign code. Its result is an input: the probe's title and duration, the engine's title, duration, prepared filename and written files, or the message it raised. The two option sets are the constructors `VideoOptions` and `AudioOptions`.
- asyncio, the executor thread and `nest_asyncio` only schedule work. They have no effect on the modelled results.
- The percentage text, speed, ETA and megabyte figures are floating-point display. Swallowing edit errors in the progress callback has no modelled effect.
- Progress.Filled: computed exactly as `floor(current * 10 / total)`. The source computes it through a float percentage, which can round differently for totals beyond about 2^50 (for `total = 1407374883553289`, about 2^50.3, and `current = (9 * total - 1) // 10` the float gives 9 where the exact fill is 8).
- Paths.Stem: `os.path.splitext` is modelled as on POSIX, with '/' as the only separator. The Windows variant, which also treats a backslash as a separator, is not modelled, although the comment at main.py:147 mentions Windows.
- Clock.FormatTime: integer durations only. A float duration from the library would make `02d` raise, which is not modelled.
- Sessions.ReceiveLink: a float duration is not modelled. In the source the link is stored at main.py:67 before `format_time` raises at main.py:71, so the user would see the error of main.py:79 with no buttons, yet a later button press would still find the stored link.
- The cookie-file check, the configuration values, creating the download directory and starting the bot are environment setup.
- Captions and status texts, including their emoji and Markdown, are left out. The upload keeps only the title the caption embeds.

=== FILE: bot.dfy ===
/** The download engine (`download_engine`) and the format-choice handler
    (`button_click`): look up the user's link, download in the chosen mode,
    upload the result, then remove the local files. The extraction library
    and the chat transport are inputs: what the engine produced (or the
    message it raised) and which client calls succeeded. */
module Bot {
  import opened Wrappers
  import opened Modes
  import opened Paths
  import opened Sessions
  import Text

  /** Title attached to the upload when the engine reports none. */
  const DefaultMediaTitle := "Media"

  /** Which option set the engine is run with: the video set for the exact
      tag "vid", the audio-extraction set for EVERY other mode. */
  datatype Options = VideoOptions | AudioOptions

  function OptionsFor(mode: string): (o: Options)
    ensures o == VideoOptions <==> mode == VideoTag
  {
    if mode == VideoTag then VideoOptions else AudioOptions
  }

  /** A mode that is neither button's tag is downloaded with the audio
      options yet given a ".mp4" file name. */
  lemma UnknownModeMismatch(mode: string)
    requires mode != VideoTag && mode != AudioTag
    ensures OptionsFor(mode) == AudioOptions && MediaExt(mode) == "mp4"
  {
  }

  /** What the extraction library did: it raised, or it fetched media whose
      info dictionary's title and duration keys may each be missing or hold
      None, and whose prepared filename is given. `written` is the set of
      files it left on disk. */
  datatype EngineOutcome =
    | EngineRaised(message: string, written: set<string>)
    | EngineFetched(title: Field<string>, duration: Field<int>, filename: string, written: set<string>)

  /** The dictionary `download_engine` returns; title and duration are None
      when the info held None for them. */
  datatype DownloadResult =
    | DownloadError(message: string)
    | Downloaded(path: string, thumb: Option<string>, title: Option<string>, duration: Option<int>)

  /** `download_engine(url, mode)` after the library ran; `fs` is the
      filesystem at that point, where the thumbnail is looked for. */
  function DownloadEngine(mode: string, outcome: EngineOutcome, fs: set<string>): (r: DownloadResult)
    ensures r.DownloadError? <==> outcome.EngineRaised?
    ensures r.DownloadError? ==> r.message == outcome.message
    ensures r.Downloaded? ==> r.path == MediaPath(outcome.filename, mode)
    ensures r.Downloaded? ==> r.thumb == FirstPresent(ThumbnailCandidates(Stem(outcome.filename)), fs)
    ensures r.Downloaded? && r.thumb.Some? ==>
      r.thumb.value in fs && exists k :: 0 <= k < |ThumbnailExts| && r.thumb.value == Stem(outcome.filename) + ThumbnailExts[k]
    ensures r.Downloaded? && r.thumb.None? ==>
      forall k :: 0 <= k < |ThumbnailExts| ==> Stem(outcome.filename) + ThumbnailExts[k] !in fs
    ensures r.Downloaded? ==> r.title == outcome.title.Get(DefaultMediaTitle) && r.duration == outcome.duration.Get(0)
  {
    match outcome
    case EngineRaised(msg, _) => DownloadError(msg)
    case EngineFetched(title, duration, filename, _) =>
      var base := Stem(filename);
      var cands := ThumbnailCandidates(base);
      var thumb := FirstPresent(cands, fs);
      assert thumb.Some? ==> exists k :: 0 <= k < |ThumbnailExts| && thumb.value == base + ThumbnailExts[k] by {
        if thumb.Some? {
          var k :| FirstAt(cands, fs, k) && cands[k] == thumb.value;
          assert thumb.value == base + ThumbnailExts[k];
        }
      }
      Downloaded(MediaPath(filename, mode), thumb, title.Get(DefaultMediaTitle), duration.Get(0))
  }

  /** `if os.path.exists(p): os.remove(p)` for the media path, then the same
      for the thumbnail when it is set (a truthy path). */
  function Cleanup(fs: set<string>, path: string, thumb: Option<string>): (r: set<string>)
    ensures path !in r
    ensures thumb.Some? && thumb.value != "" ==> thumb.value !in r
    ensures r <= fs
    ensures forall p :: p in fs && p !in r ==> p == path || (thumb.Some? && p == thumb.value)
  {
    var afterMedia := if path in fs then fs - {path} else fs;
    if thumb.Some? && thumb.value != "" && thumb.value in afterMedia then afterMedia - {thumb.value}
    else afterMedia
  }

  datatype UploadKind = VideoUpload | AudioUpload

  /** The attachment sent: kind, file, the title as the caption shows it,
      preview, duration (None when the info held None), and whether it is
      declared streamable. */
  datatype Upload = Upload(kind: UploadKind, path: string, title: string, thumb: Option<string>,
                           duration: Option<int>, streaming: bool)

  /** Which transport calls succeed: the media send, the deletion of the
      status message after it, and the edit that reports an upload error. */
  datatype Client = Client(sendOk: bool, deleteOk: bool, errorEditOk: bool)

  /** How the upload part of the handler ends. */
  datatype Ending =
    | Delivered             // sent, status message deleted
    | UploadErrorShown      // send or delete raised; the error was shown on the status message
    | HandlerRaised         // reporting that error raised too: the handler exits before cleanup

  /** The handler's observable effect. */
  datatype Click =
    | SessionExpired                                              // answered "Session expired"
    | DownloadFailed(url: string, options: Options, message: string)
    | UploadAttempted(url: string, options: Options, upload: Upload, ending: Ending)

  datatype BotState = BotState(sessions: Store, fs: set<string>)

  datatype Clicked = Clicked(state: BotState, click: Click)

  /** The attachment for a successful download: video (streamable) for "vid",
      audio for every other mode. */
  function UploadFor(mode: string, path: string, thumb: Option<string>, title: string, duration: Option<int>): (u: Upload)
    ensures u.kind == VideoUpload <==> mode == VideoTag
    ensures u.streaming <==> u.kind == VideoUpload
    ensures u.path == path && u.thumb == thumb && u.title == title && u.duration == duration
  {
    if mode == VideoTag then Upload(VideoUpload, path, title, thumb, duration, true)
    else Upload(AudioUpload, path, title, thumb, duration, false)
  }

  /** The ending the transport outcomes lead to. */
  function EndingOf(client: Client): (e: Ending)
    ensures e == Delivered <==> client.sendOk && client.deleteOk
    ensures e == HandlerRaised <==> !(client.sendOk && client.deleteOk) && !client.errorEditOk
  {
    if client.sendOk && client.deleteOk then Delivered
    else if client.errorEditOk then UploadErrorShown
    else HandlerRaised
  }

  /** `button_click` for a press of the button tagged `mode` by `user`.
      The engine's files are added to the filesystem, and the local cleanup
      runs unless the handler raised before reaching it. */
  function ButtonClick(s: BotState, user: UserId, mode: string, engine: EngineOutcome, client: Client): (r: Clicked)
    ensures r.state.sessions == s.sessions
    ensures r.click.SessionExpired? <==> SessionUrl(s.sessions, user).None?
    ensures r.click.SessionExpired? ==> r.state == s
    ensures !r.click.SessionExpired? ==> r.click.url == s.sessions[user] && r.click.options == OptionsFor(mode)
    ensures r.click.DownloadFailed? <==> !r.click.SessionExpired? && engine.EngineRaised?
    ensures r.click.DownloadFailed? ==> r.state.fs == s.fs + engine.written && r.click.message == engine.message
    ensures r.click.UploadAttempted? ==> r.state.fs <= s.fs + engine.written
    ensures r.click.UploadAttempted? ==> forall p :: p in s.fs + engine.written && p !in r.state.fs ==>
      p == r.click.upload.path || (r.click.upload.thumb.Some? && p == r.click.upload.thumb.value)
    ensures r.click.UploadAttempted? && r.click.ending != HandlerRaised ==>
      r.click.upload.path !in r.state.fs && (r.click.upload.thumb.Some? ==> r.click.upload.thumb.value !in r.state.fs)
    ensures r.click.UploadAttempted? && r.click.ending == HandlerRaised ==> r.state.fs == s.fs + engine.written
    ensures r.click.UploadAttempted? ==> r.click.ending == EndingOf(client)
    ensures r.click.UploadAttempted? ==> var d := DownloadEngine(mode, engine, s.fs + engine.written);
      r.click.upload == UploadFor(mode, d.path, d.thumb, ShowText(d.title), d.duration)
  {
    match SessionUrl(s.sessions, user)
    case None => Clicked(s, SessionExpired)
    case Some(url) =>
      var fs := s.fs + engine.written;
      match DownloadEngine(mode, engine, fs)
      case DownloadError(msg) => Clicked(BotState(s.sessions, fs), DownloadFailed(url, OptionsFor(mode), msg))
      case Downloaded(path, thumb, title, duration) =>
        ThumbIsNamed(mode, engine, fs);
        var ending := EndingOf(client);
        var fs' := if ending == HandlerRaised then fs else Cleanup(fs, path, thumb);
        Clicked(BotState(s.sessions, fs'), UploadAttempted(url, OptionsFor(mode), UploadFor(mode, path, thumb, ShowText(title), duration), ending))
  }

  /** A thumbnail the engine reports is never the empty path. */
  lemma ThumbIsNamed(mode: string, engine: EngineOutcome, fs: set<string>)
    requires DownloadEngine(mode, engine, fs).Downloaded?
    ensures DownloadEngine(mode, engine, fs).thumb.Some? ==> DownloadEngine(mode, engine, fs).thumb.value != ""
  {
    var r := DownloadEngine(mode, engine, fs);
    if r.thumb.Some? {
      var k :| 0 <= k < |ThumbnailExts| && r.thumb.value == Stem(engine.filename) + ThumbnailExts[k];
      assert |r.thumb.value| >= |ThumbnailExts[k]| > 0;
    }
  }

  /** Cleanup does not depend on whether the upload succeeded: a delivered
      upload and a failed one whose error was reported leave the same state. */
  lemma CleanupWhateverTheUpload(s: BotState, user: UserId, mode: string, engine: EngineOutcome, c1: Client, c2: Client)
    requires c1.errorEditOk && c2.errorEditOk
    ensures ButtonClick(s, user, mode, engine, c1).state == ButtonClick(s, user, mode, engine, c2).state
  {
  }

  /** The cleanup is not guarded by `finally`: when the upload fails and
      reporting that failure fails too, the media file stays on disk. */
  lemma ReportFailureSkipsCleanup(s: BotState, user: UserId, mode: string, engine: EngineOutcome, client: Client)
    requires SessionUrl(s.sessions, user).Some? && engine.EngineFetched?
    requires !client.sendOk && !client.errorEditOk
    ensures ButtonClick(s, user, mode, engine, client).click.ending == HandlerRaised
    ensures ButtonClick(s, user, mode, engine, client).state.fs == s.fs + engine.written
  {
  }

  /** A stored link is read, not consumed: pressing a button twice in a row
      downloads the same URL both times. */
  lemma ClickDoesNotConsume(s: BotState, user: UserId, m1: string, e1: EngineOutcome, c1: Client,
                            m2: string, e2: EngineOutcome, c2: Client)
    requires SessionUrl(s.sessions, user).Some?
    ensures var r1 := ButtonClick(s, user, m1, e1, c1);
      var r2 := ButtonClick(r1.state, user, m2, e2, c2);
      !r1.click.SessionExpired? && !r2.click.SessionExpired? && r1.click.url == r2.click.url
  {
  }

  /** In a well-formed store, a user who never sent an accepted link gets
      "Session expired", no download starts, and nothing changes. */
  lemma NoLinkNoDownload(s: BotState, user: UserId, mode: string, engine: EngineOutcome, client: Client)
    requires WellFormed(s.sessions) && user !in s.sessions
    ensures ButtonClick(s, user, mode, engine, client) == Clicked(s, SessionExpired)
  {
    ExpiredIffAbsent(s.sessions, user);
  }

  /** The link handler followed by a button press: the download uses the
      link just accepted. */
  lemma LinkThenClick(s: BotState, user: UserId, text: string, probe: ProbeOutcome,
                      mode: string, engine: EngineOutcome, client: Client)
    requires ReceiveLink(s.sessions, user, text, probe).reply.ChooseFormat?
    ensures var linked := ReceiveLink(s.sessions, user, text, probe);
      var r := ButtonClick(BotState(linked.store, s.fs), user, mode, engine, client);
      !r.click.SessionExpired? && r.click.url == text
  {
    ReceiveThenSession(s.sessions, user, text, probe);
  }

  /** The handler on the success path, spelled out: the stored URL is
      downloaded, the attachment matches the mode, and the cleanup runs. */
  lemma DeliveredClick(s: BotState, user: UserId, mode: string, engine: EngineOutcome, client: Client)
    requires SessionUrl(s.sessions, user).Some? && engine.EngineFetched?
    requires client.sendOk && client.deleteOk
    ensures var d := DownloadEngine(mode, engine, s.fs + engine.written);
      ButtonClick(s, user, mode, engine, client)
      == Clicked(BotState(s.sessions, Cleanup(s.fs + engine.written, d.path, d.thumb)),
                 UploadAttempted(s.sessions[user], OptionsFor(mode), UploadFor(mode, d.path, d.thumb, ShowText(d.title), d.duration), Delivered))
  {
  }

  const ScenarioUrl := "https://example.com/watch?v=abc"

  /** The link step of the audio scenario: the probe's 125 s show as
      "02:05" and the link is stored. */
  lemma ScenarioLink(user: UserId)
    ensures var linked := ReceiveLink(map[], user, ScenarioUrl, ProbeInfo(Present("Test Video"), Present(125)));
      && linked.reply == ChooseFormat("Test Video", "02:05", [VideoTag, AudioTag])
      && SessionUrl(linked.store, user) == Some(ScenarioUrl)
  {
    var probe := ProbeInfo(Present("Test Video"), Present(125));
    assert Text.OccursAt(ScenarioUrl, UrlMarker, 0);
    assert Text.Contains(ScenarioUrl, UrlMarker);
    assert ReceiveLink(map[], user, ScenarioUrl, probe).reply
      == ChooseFormat(ShowText(Some("Test Video")), Clock.FormatTime(Some(125)), [VideoTag, AudioTag]);
    Clock.FormatTimeExamples();
    ReceiveThenSession(map[], user, ScenarioUrl, probe);
  }

  /** The prepared filename of the scenario loses its ".webm". */
  lemma ScenarioStem()
    ensures Stem("/tmp/dl/abc.webm") == "/tmp/dl/abc"
  {
    assert "/tmp/dl/abc.webm" == "/tmp/dl/abc" + [ExtSep] + "webm";
    assert NamedComponent("/tmp/dl/abc") by {
      assert "/tmp/dl/abc" == "/tmp/dl" + [Sep] + "abc";
      Text.LastIndexOfSeparator("/tmp/dl", Sep, "abc");
      assert "/tmp/dl/abc"[8] != ExtSep;
    }
    SplitAppendedExt("/tmp/dl/abc", "webm");
  }

  /** The engine step of the audio scenario: with the WebP thumbnail on
      disk, the audio mode yields the MP3 path and that thumbnail. */
  lemma ScenarioDownload(written: set<string>, disk: set<string>)
    requires "/tmp/dl/abc.webp" in disk
    ensures DownloadEngine(AudioTag, EngineFetched(Present("Test Video"), Present(125), "/tmp/dl/abc.webm", written), disk)
      == Downloaded("/tmp/dl/abc.mp3", Some("/tmp/dl/abc.webp"), Some("Test Video"), Some(125))
  {
    ScenarioStem();
    assert "/tmp/dl/abc" + ".webp" == "/tmp/dl/abc.webp";
    ThumbnailPreference("/tmp/dl/abc", disk);
    assert MediaPath("/tmp/dl/abc.webm", AudioTag) == "/tmp/dl/abc" + [ExtSep] + "mp3" == "/tmp/dl/abc.mp3";
  }

  /** A complete audio request: after the link step, the audio button is
      pressed, the MP3 and its WebP thumbnail are uploaded and then
      removed, and nothing else on disk is touched. */
  lemma AudioScenario(user: UserId, fs: set<string>)
    requires "/tmp/dl/abc.mp3" !in fs && "/tmp/dl/abc.webp" !in fs
    ensures var linked := ReceiveLink(map[], user, ScenarioUrl, ProbeInfo(Present("Test Video"), Present(125)));
      var engine := EngineFetched(Present("Test Video"), Present(125), "/tmp/dl/abc.webm",
                                  {"/tmp/dl/abc.mp3", "/tmp/dl/abc.webp"});
      var r := ButtonClick(BotState(linked.store, fs), user, AudioTag, engine, Client(true, true, true));
      && r.click == UploadAttempted(ScenarioUrl, AudioOptions,
           Upload(AudioUpload, "/tmp/dl/abc.mp3", "Test Video", Some("/tmp/dl/abc.webp"), Some(125), false), Delivered)
      && r.state.fs == fs
  {
    ScenarioLink(user);
    var linked := ReceiveLink(map[], user, ScenarioUrl, ProbeInfo(Present("Test Video"), Present(125)));
    var written := {"/tmp/dl/abc.mp3", "/tmp/dl/abc.webp"};
    var engine := EngineFetched(Present("Test Video"), Present(125), "/tmp/dl/abc.webm", written);
    var disk := fs + written;
    ScenarioDownload(written, disk);
    var d := DownloadEngine(AudioTag, engine, disk);
    assert Cleanup(disk, "/tmp/dl/abc.mp3", Some("/tmp/dl/abc.webp")) == fs;
    assert UploadFor(AudioTag, d.path, d.thumb, ShowText(d.title), d.duration)
      == Upload(AudioUpload, "/tmp/dl/abc.mp3", "Test Video", Some("/tmp/dl/abc.webp"), Some(125), false);
    DeliveredClick(BotState(linked.store, fs), user, AudioTag, engine, Client(true, true, true));
  }
}

=== FILE: clock.dfy ===
/** Duration display (`format_time`): whole seconds shown as `MM:SS`, each
    field formatted with Python's `02d`, after `divmod(seconds, 60)`.
    The parser `ParseClock` is the independent partner used to show that
    the display loses nothing for non-negative durations. */
module Clock {
  import opened Wrappers
  import opened Text

  /** The text shown for a missing or zero duration. */
  const ZeroClock := "00:00"

  predicate IsDigit(c: char) {
    '0' <= c <= '9'
  }

  predicate AllDigits(s: string) {
    forall i :: 0 <= i < |s| ==> IsDigit(s[i])
  }

  function DigitChar(d: nat): (c: char)
    requires d < 10
    ensures IsDigit(c)
  {
    ('0' as int + d) as char
  }

  function DigitValue(c: char): (d: nat)
    requires IsDigit(c)
    ensures d < 10
  {
    c as int - '0' as int
  }

  /** Decimal digits of `n`, most significant first, without leading zeros. */
  function Digits(n: nat): (r: string)
    ensures |r| >= 1 && AllDigits(r)
    ensures n > 0 ==> r[0] != '0'
    decreases n
  {
    if n < 10 then [DigitChar(n)] else Digits(n / 10) + [DigitChar(n % 10)]
  }

  /** The value of a string of decimal digits (empty reads as 0). */
  function ParseDecimal(s: string): nat
    requires AllDigits(s)
    decreases |s|
  {
    if |s| == 0 then 0 else ParseDecimal(s[..|s| - 1]) * 10 + DigitValue(s[|s| - 1])
  }

  /** Reading the digits of `n` gives back `n`. */
  lemma {:induction false} ParseDigits(n: nat)
    ensures ParseDecimal(Digits(n)) == n
  {
    if n >= 10 {
      var d := Digits(n / 10);
      assert (d + [DigitChar(n % 10)])[..|d|] == d;
      ParseDigits(n / 10);
    }
  }

  /** How many digits `n` has, in the three ranges the display cares about. */
  lemma {:induction false} DigitsLength(n: nat)
    ensures n < 10 <==> |Digits(n)| == 1
    ensures 10 <= n < 100 <==> |Digits(n)| == 2
    ensures n >= 100 <==> |Digits(n)| >= 3
  {
    if n >= 10 {
      DigitsLength(n / 10);
    }
  }

  /** A leading zero does not change the value read. */
  lemma {:induction false} ParseLeadingZero(s: string)
    requires AllDigits(s)
    ensures ParseDecimal("0" + s) == ParseDecimal(s)
  {
    if |s| > 0 {
      var t := "0" + s;
      assert t[..|t| - 1] == "0" + s[..|s| - 1];
      ParseLeadingZero(s[..|s| - 1]);
    }
  }

  /** Python's `format(n, '02d')`: zero-padded to width two; a negative
      number already has two characters, so it gets its sign and no padding.
      A non-negative field is all digits, at least two, exactly two below
      100, and reads back as the number; a negative one is '-' and the
      digits of its magnitude. */
  function Pad2(n: int): (r: string)
    ensures n >= 0 ==> AllDigits(r) && |r| >= 2 && (n < 100 <==> |r| == 2) && ParseDecimal(r) == n
    ensures n < 0 ==> |r| >= 2 && r[0] == '-' && AllDigits(r[1..]) && ParseDecimal(r[1..]) == -n
  {
    if n < 0 then
      ParseDigits(-n);
      assert ("-" + Digits(-n))[1..] == Digits(-n);
      "-" + Digits(-n)
    else
      DigitsLength(n);
      ParseDigits(n);
      if n < 10 then
        ParseLeadingZero(Digits(n));
        "0" + Digits(n)
      else
        Digits(n)
  }

  /** "00:00" consists of two fields that read as zero. */
  lemma ZeroClockFields()
    ensures AllDigits(ZeroClock[..2]) && ParseDecimal(ZeroClock[..2]) == 0
    ensures AllDigits(ZeroClock[3..]) && ParseDecimal(ZeroClock[3..]) == 0
  {
    assert ZeroClock[..2] == ZeroClock[3..] == "0" + "0";
    ParseLeadingZero("0");
  }

  /** The two fields of a joined display, recovered by position. */
  lemma JoinFields(m: int, s: int)
    requires 0 <= s < 60
    ensures var r := Pad2(m) + ":" + Pad2(s);
      && |r| >= 5 && r[|r| - 3] == ':'
      && r[..|r| - 3] == Pad2(m) && r[|r| - 2..] == Pad2(s)
  {
    var r := Pad2(m) + ":" + Pad2(s);
    assert r[..|r| - 3] == Pad2(m);
    assert r[|r| - 2..] == Pad2(s);
  }

  /** A joined display is "00:00" only for zero minutes and zero seconds. */
  lemma JoinNotZero(m: int, s: int)
    requires 0 <= s < 60 && (m != 0 || s != 0)
    ensures Pad2(m) + ":" + Pad2(s) != ZeroClock
  {
    var r := Pad2(m) + ":" + Pad2(s);
    JoinFields(m, s);
    ZeroClockFields();
    if m < 0 {
      assert r[0] != ZeroClock[0];
    } else {
      assert Pad2(m) != ZeroClock[..2] || Pad2(s) != ZeroClock[3..];
    }
  }

  /** `format_time(seconds)`: "00:00" when the duration is missing or zero
      (Python falsiness), otherwise the floor quotient and remainder of a
      division by 60, each padded by `Pad2`, joined by a colon. The display
      is "00:00" for exactly those inputs; it always ends in ':' and two
      digits reading back as the floor remainder; for a non-negative
      duration the part before the colon reads back as the floor quotient,
      and a negative one starts with '-'. */
  function FormatTime(seconds: Option<int>): (r: string)
    ensures |r| >= 5 && r[|r| - 3] == ':'
    ensures r == ZeroClock <==> seconds.None? || seconds.value == 0
    ensures var d := seconds.GetOr(0);
      AllDigits(r[|r| - 2..]) && ParseDecimal(r[|r| - 2..]) == d % 60
    ensures var d := seconds.GetOr(0);
      d >= 0 ==> AllDigits(r[..|r| - 3]) && ParseDecimal(r[..|r| - 3]) == d / 60
    ensures seconds.Some? && seconds.value < 0 ==> r[0] == '-'
  {
    if seconds.None? || seconds.value == 0 then
      ZeroClockFields();
      ZeroClock
    else
      var m, s := seconds.value / 60, seconds.value % 60;
      JoinFields(m, s);
      JoinNotZero(m, s);
      Pad2(m) + ":" + Pad2(s)
  }

  /** Reads a display back: minutes of two or more digits, a colon, and a
      seconds field of exactly two digits below 60. */
  function ParseClock(t: string): (r: Option<nat>)
  {
    var i := LastIndexOf(t, ':');
    if i < 0 then None
    else
      var mins, secs := t[..i], t[i + 1..];
      if |mins| < 2 || |secs| != 2 || !AllDigits(mins) || !AllDigits(secs) then None
      else if ParseDecimal(secs) >= 60 then None
      else Some(ParseDecimal(mins) * 60 + ParseDecimal(secs))
  }

  /** Two digit fields joined by a colon read back as minutes * 60 +
      seconds, when they have the shape the parser accepts. */
  lemma ParseFields(a: string, b: string)
    requires AllDigits(a) && AllDigits(b) && |a| >= 2 && |b| == 2 && ParseDecimal(b) < 60
    ensures ParseClock(a + ":" + b) == Some(ParseDecimal(a) * 60 + ParseDecimal(b))
  {
    var t := a + ":" + b;
    assert ':' !in b by {
      assert forall i :: 0 <= i < |b| ==> IsDigit(b[i]);
    }
    LastIndexOfSeparator(a, ':', b);
    assert t[..|a|] == a && t[|a| + 1..] == b;
  }

  /** Joining two padded fields reads back as minutes * 60 + seconds. */
  lemma ParseJoin(m: nat, s: nat)
    requires s < 60
    ensures ParseClock(Pad2(m) + ":" + Pad2(s)) == Some(m * 60 + s)
  {
    ParseFields(Pad2(m), Pad2(s));
  }

  /** Round trip: every non-negative duration is recovered from its
      display, including 0 ("00:00") and durations of 100 minutes or more. */
  lemma FormatTimeRoundTrip(d: nat)
    ensures ParseClock(FormatTime(Some(d))) == Some(d)
  {
    if d == 0 {
      assert FormatTime(Some(0)) == Pad2(0) + ":" + Pad2(0);
      ParseJoin(0, 0);
    } else {
      var m, s := d / 60, d % 60;
      assert FormatTime(Some(d)) == Pad2(m) + ":" + Pad2(s);
      ParseJoin(m, s);
      assert m * 60 + s == d;
    }
  }

  /** A missing duration is displayed as zero seconds. */
  lemma FormatTimeMissing()
    ensures FormatTime(None) == FormatTime(Some(0)) == "00:00"
    ensures ParseClock(FormatTime(None)) == Some(0)
  {
    FormatTimeRoundTrip(0);
  }

  /** Distinct non-negative durations have distinct displays. */
  lemma FormatTimeInjective(d1: nat, d2: nat)
    requires FormatTime(Some(d1)) == FormatTime(Some(d2))
    ensures d1 == d2
  {
    FormatTimeRoundTrip(d1);
    FormatTimeRoundTrip(d2);
  }

  /** Below 100 minutes the display is exactly `MM:SS`: five characters,
      the colon in the middle, minutes and seconds reading back as the
      floor quotient and remainder, seconds in 00..59. */
  lemma FormatTimeShape(d: int)
    requires 1 <= d < 6000
    ensures |FormatTime(Some(d))| == 5 && FormatTime(Some(d))[2] == ':'
    ensures AllDigits(FormatTime(Some(d))[..2]) && AllDigits(FormatTime(Some(d))[3..])
    ensures ParseDecimal(FormatTime(Some(d))[..2]) == d / 60
    ensures ParseDecimal(FormatTime(Some(d))[3..]) == d % 60 < 60
  {
    var m, s := d / 60, d % 60;
    var t := Pad2(m) + ":" + Pad2(s);
    assert t[..2] == Pad2(m);
    assert t[3..] == Pad2(s);
  }

  /** From 100 minutes on, the minutes field outgrows two digits. */
  lemma FormatTimeLong(d: int)
    requires d >= 6000
    ensures |FormatTime(Some(d))| >= 6
  {
  }

  /** `02d` pads only up to width two: from 10 on there is no leading zero,
      and a negative number has none after its sign. */
  lemma Pad2Canonical(n: int)
    ensures n >= 10 ==> Pad2(n)[0] != '0'
    ensures n < 0 ==> Pad2(n)[1] != '0'
  {
  }

  /** The minutes field carries no padding beyond two digits: from 10
      minutes on the display does not start with '0' (6000 s gives "100:00",
      never "0100:00"), and a negative display has no '0' after its '-'. */
  lemma FormatTimeCanonical(d: int)
    ensures d >= 600 ==> FormatTime(Some(d))[0] != '0'
    ensures d < 0 ==> FormatTime(Some(d))[1] != '0'
  {
    if d != 0 {
      var m, s := d / 60, d % 60;
      Pad2Canonical(m);
      assert FormatTime(Some(d)) == Pad2(m) + ":" + Pad2(s);
      assert FormatTime(Some(d))[..|Pad2(m)|] == Pad2(m);
    }
  }

  /** A negative duration shows '-' and then minutes that read back as the
      magnitude of the floor quotient (-5 s has minutes -1, shown "-1"). */
  lemma FormatTimeNegativeMinutes(d: int)
    requires d < 0
    ensures var r := FormatTime(Some(d));
      r[0] == '-' && AllDigits(r[1..|r| - 3]) && ParseDecimal(r[1..|r| - 3]) == -(d / 60)
  {
    var m, s := d / 60, d % 60;
    FormatTimeFields(d);
    JoinFields(m, s);
    var r := FormatTime(Some(d));
    assert r[..|r| - 3] == Pad2(m);
    assert r[1..|r| - 3] == Pad2(m)[1..];
  }

  /** Concrete displays: 125 s, 100 minutes, one second, and -5 s, where
      floor `divmod` gives minutes -1 and seconds 55. */
  lemma FormatTimeExamples()
    ensures FormatTime(Some(125)) == "02:05"
    ensures FormatTime(Some(6000)) == "100:00"
    ensures FormatTime(Some(1)) == "00:01"
    ensures FormatTime(Some(-5)) == "-1:55"
  {
    PaddedSmall();
    FormatTimeFields(125);
    FormatTimeFields(6000);
    FormatTimeFields(1);
    FormatTimeFields(-5);
    assert -5 / 60 == -1 && -5 % 60 == 55;
  }

  /** A non-zero duration is shown as its two padded `divmod` fields. */
  lemma FormatTimeFields(d: int)
    requires d != 0
    ensures FormatTime(Some(d)) == Pad2(d / 60) + ":" + Pad2(d % 60)
  {
  }

  /** The padded fields the examples use. */
  lemma PaddedSmall()
    ensures Pad2(0) == "00" && Pad2(1) == "01" && Pad2(2) == "02" && Pad2(5) == "05"
    ensures Pad2(55) == "55" && Pad2(100) == "100" && Pad2(-1) == "-1"
  {
    assert Digits(55) == Digits(5) + [DigitChar(5)];
    assert Digits(100) == Digits(10) + [DigitChar(0)];
    assert Digits(10) == Digits(1) + [DigitChar(0)];
  }
}

=== FILE: modes.dfy ===
/** The two format modes: the callback tags of the buttons the link handler
    offers, which the download engine and the upload compare against. */
module Modes {
  const VideoTag := "vid"
  const AudioTag := "aud"
}

=== FILE: paths.dfy ===
/** Where the downloaded artifacts are expected (`download_engine`): the
    media path is the prepared filename with its extension replaced by the
    one the mode asks for, and the thumbnail is the first image found next
    to it. `Stem`/`Extension` follow POSIX `os.path.splitext`. */
module Paths {
  import opened Wrappers
  import opened Text
  import opened Modes

  const Sep := '/'
  const ExtSep := '.'

  /** Image extensions probed for the thumbnail, in order of preference. */
  const ThumbnailExts: seq<string> := [".webp", ".jpg", ".png"]

  /** Some character of `p[lo..hi]` is not a dot. */
  predicate HasNonDot(p: string, lo: int, hi: int)
    requires 0 <= lo && hi <= |p|
  {
    exists k :: lo <= k < hi && p[k] != ExtSep
  }

  /** Index of the dot that starts the extension, or -1 when there is none:
      the last dot, if it lies in the final component and that component has
      a non-dot character before it (a name made only of leading dots, like
      `.bashrc`, has no extension). */
  function ExtStart(p: string): (e: int)
    ensures e == -1 || (0 <= e < |p| && p[e] == ExtSep)
    ensures e >= 0 ==> forall j :: e < j < |p| ==> p[j] != ExtSep && p[j] != Sep
    ensures e >= 0 ==> LastIndexOf(p, Sep) < e && HasNonDot(p, LastIndexOf(p, Sep) + 1, e)
    ensures e == -1 ==> forall k :: LastIndexOf(p, Sep) < k < |p| && p[k] == ExtSep ==>
      !HasNonDot(p, LastIndexOf(p, Sep) + 1, k)
  {
    var sepIndex := LastIndexOf(p, Sep);
    var dotIndex := LastIndexOf(p, ExtSep);
    if dotIndex > sepIndex && HasNonDot(p, sepIndex + 1, dotIndex) then dotIndex else -1
  }

  /** `os.path.splitext(p)[0]`: a prefix of the path, the whole path when
      there is no extension. */
  function Stem(p: string): (r: string)
    ensures |r| <= |p| && r == p[..|r|]
    ensures ExtStart(p) < 0 <==> r == p
  {
    var e := ExtStart(p);
    if e < 0 then p else p[..e]
  }

  /** `os.path.splitext(p)[1]`: the split loses nothing, and the extension
      is empty or a single dot followed by characters that are neither dots
      nor separators. */
  function Extension(p: string): (r: string)
    ensures Stem(p) + r == p
    ensures r == "" || (r[0] == ExtSep && forall j :: 1 <= j < |r| ==> r[j] != ExtSep && r[j] != Sep)
  {
    var e := ExtStart(p);
    if e < 0 then "" else p[e..]
  }

  /** The final path component of `root` has a character other than a dot. */
  predicate NamedComponent(root: string) {
    HasNonDot(root, LastIndexOf(root, Sep) + 1, |root|)
  }

  /** Only the LAST extension of the final component is split off:
      `root + "." + x` with `x` free of dots and separators splits into
      `root` and `"." + x` (so "a.b.c" splits into "a.b" and ".c"). */
  lemma SplitAppendedExt(root: string, x: string)
    requires NamedComponent(root)
    requires ExtSep !in x && Sep !in x
    ensures Stem(root + [ExtSep] + x) == root
    ensures Extension(root + [ExtSep] + x) == [ExtSep] + x
  {
    var p := root + [ExtSep] + x;
    LastIndexOfSeparator(root, ExtSep, x);
    assert Sep !in [ExtSep] + x;
    LastIndexOfAppend(root, [ExtSep] + x, Sep);
    assert p == root + ([ExtSep] + x);
    var s := LastIndexOf(root, Sep);
    var k :| s + 1 <= k < |root| && root[k] != ExtSep;
    assert p[k] == root[k];
    assert HasNonDot(p, s + 1, |root|);
  }

  /** A final component made of a leading dot and a dot-free name (".bashrc")
      has no extension: the whole path is its own stem. */
  lemma HiddenNameHasNoExt(dir: string, x: string)
    requires dir == [] || dir[|dir| - 1] == Sep
    requires ExtSep !in x && Sep !in x
    ensures Stem(dir + [ExtSep] + x) == dir + [ExtSep] + x
    ensures Extension(dir + [ExtSep] + x) == ""
  {
    var p := dir + [ExtSep] + x;
    LastIndexOfSeparator(dir, ExtSep, x);
    assert Sep !in [ExtSep] + x;
    LastIndexOfAppend(dir, [ExtSep] + x, Sep);
    assert p == dir + ([ExtSep] + x);
    assert LastIndexOf(dir, Sep) == |dir| - 1;
  }

  /** The extension `download_engine` gives the media file: "mp3" only for
      the exact tag "aud", "mp4" for every other mode. */
  function MediaExt(mode: string): (x: string)
    ensures x == "mp3" <==> mode == AudioTag
    ensures x == "mp3" || x == "mp4"
  {
    if mode == AudioTag then "mp3" else "mp4"
  }

  /** `os.path.splitext(filename)[0] + "." + ext`. */
  function MediaPath(filename: string, mode: string): (r: string)
    ensures |r| >= 4 && r[|r| - 4] == ExtSep && r[|r| - 3..] == MediaExt(mode)
    ensures r[..|r| - 4] == Stem(filename)
  {
    Stem(filename) + [ExtSep] + MediaExt(mode)
  }

  /** For a prepared filename with an extension, the media path replaces
      exactly that last extension: ".mp3" for "aud", ".mp4" otherwise. */
  lemma MediaPathReplacesExt(root: string, x: string, mode: string)
    requires NamedComponent(root)
    requires ExtSep !in x && Sep !in x
    ensures MediaPath(root + [ExtSep] + x, mode) == root + (if mode == AudioTag then ".mp3" else ".mp4")
  {
    SplitAppendedExt(root, x);
  }

  /** The paths probed for a thumbnail next to `base`, in probing order. */
  function ThumbnailCandidates(base: string): (c: seq<string>)
    ensures |c| == |ThumbnailExts|
    ensures forall k :: 0 <= k < |c| ==> c[k] == base + ThumbnailExts[k]
  {
    [base + ThumbnailExts[0], base + ThumbnailExts[1], base + ThumbnailExts[2]]
  }

  /** `cands[k]` is present and no earlier candidate is. */
  predicate FirstAt(cands: seq<string>, fs: set<string>, k: int) {
    0 <= k < |cands| && cands[k] in fs && forall j :: 0 <= j < k ==> cands[j] !in fs
  }

  /** The first of `cands` present in `fs`, or None when none is. */
  function FirstPresent(cands: seq<string>, fs: set<string>): (r: Option<string>)
    ensures r.None? <==> forall k :: 0 <= k < |cands| ==> cands[k] !in fs
    ensures r.Some? ==> exists k :: FirstAt(cands, fs, k) && cands[k] == r.value
  {
    if |cands| == 0 then None
    else if cands[0] in fs then Some(cands[0])
    else
      var r := FirstPresent(cands[1..], fs);
      assert r.Some? ==> exists k :: FirstAt(cands, fs, k) && cands[k] == r.value by {
        if r.Some? {
          var k :| FirstAt(cands[1..], fs, k) && cands[1..][k] == r.value;
          assert forall j :: 0 <= j < k + 1 ==> cands[j] !in fs by {
            forall j | 0 <= j < k + 1 ensures cands[j] !in fs {
              if j > 0 {
                assert cands[j] == cands[1..][j - 1];
              }
            }
          }
          assert FirstAt(cands, fs, k + 1);
        }
      }
      assert (forall k :: 0 <= k < |cands| ==> cands[k] !in fs)
        <==> forall k :: 0 <= k < |cands[1..]| ==> cands[1..][k] !in fs by {
        if forall k :: 0 <= k < |cands[1..]| ==> cands[1..][k] !in fs {
          forall k | 0 <= k < |cands| ensures cands[k] !in fs {
            if k > 0 {
              assert cands[k] == cands[1..][k - 1];
            }
          }
        }
      }
      r
  }

  /** The thumbnail search loop: probe `base + ext` for each extension in
      order and stop at the first that exists. */
  method FindThumbnail(base: string, fs: set<string>) returns (thumb: Option<string>)
    ensures thumb == FirstPresent(ThumbnailCandidates(base), fs)
    ensures thumb.Some? ==> thumb.value in fs
  {
    var cands := ThumbnailCandidates(base);
    thumb := None;
    var i := 0;
    while i < |ThumbnailExts|
      invariant 0 <= i <= |ThumbnailExts|
      invariant thumb.None? ==> FirstPresent(cands, fs) == FirstPresent(cands[i..], fs)
      invariant thumb.Some? ==> thumb == FirstPresent(cands, fs)
      decreases |ThumbnailExts| - i, thumb.None?
    {
      if base + ThumbnailExts[i] in fs {
        thumb := Some(base + ThumbnailExts[i]);
        assert cands[i..][0] == cands[i];
        break;
      }
      assert cands[i..][1..] == cands[i + 1..];
      i := i + 1;
    }
  }

  /** An earlier extension always wins: the thumbnail is ".webp" whenever
      that exists, ".jpg" when only it and ".png" might, ".png" last. */
  lemma ThumbnailPreference(base: string, fs: set<string>)
    ensures base + ".webp" in fs ==> FirstPresent(ThumbnailCandidates(base), fs) == Some(base + ".webp")
    ensures base + ".webp" !in fs && base + ".jpg" in fs ==>
      FirstPresent(ThumbnailCandidates(base), fs) == Some(base + ".jpg")
    ensures base + ".webp" !in fs && base + ".jpg" !in fs && base + ".png" in fs ==>
      FirstPresent(ThumbnailCandidates(base), fs) == Some(base + ".png")
    ensures base + ".webp" !in fs && base + ".jpg" !in fs && base + ".png" !in fs ==>
      FirstPresent(ThumbnailCandidates(base), fs) == None
  {
    var c := ThumbnailCandidates(base);
    assert c[1..][1..] == [c[2]];
  }
}

=== FILE: progress.dfy ===
/** The upload progress callback (`progress_bar`), restricted to its integer
    parts: the throttle that decides whether a callback edits the status
    message, and the ten-cell bar it draws. Timestamps are integer
    milliseconds; the percentage text, speed, ETA and MB figures are
    floating-point display and are not modelled. */
module Progress {
  import opened Text

  /** The throttle interval of three seconds, in milliseconds. */
  const ThrottleMillis := 3000

  /** Number of cells in the visual bar. */
  const BarCells := 10

  const Full := '\U{25A0}'
  const Empty := '\U{25A1}'

  /** Python's floor division `a // b`. */
  function FloorDiv(a: int, b: int): (q: int)
    requires b != 0
    ensures b > 0 ==> q * b <= a < q * b + b
    ensures b < 0 ==> q * b + b < a <= q * b
  {
    if b > 0 then a / b else (-a) / (-b)
  }

  /** The early return of the callback: the edit is skipped while less than
      three seconds have passed since the UPLOAD STARTED and the transfer is
      incomplete. The time of the previous edit plays no part. */
  predicate Suppressed(now: int, start: int, current: int, total: int) {
    now - start < ThrottleMillis && current < total
  }

  /** Number of full cells: the floor of a tenth of the percentage
      `current * 100 / total`. */
  function Filled(current: int, total: int): (f: int)
    requires total != 0
    ensures total > 0 ==> f * total <= current * 10 < f * total + total
    ensures total < 0 ==> f * total + total < current * 10 <= f * total
  {
    FloorDiv(current * 10, total)
  }

  /** The bar: `f` full cells then `10 - f` empty ones (Python's string
      repetition, so a negative count contributes nothing). */
  function Bar(f: int): (r: string)
    ensures |r| == (if f <= 0 then 0 else f) + (if BarCells - f <= 0 then 0 else BarCells - f)
    ensures forall i :: 0 <= i < |r| ==> r[i] == (if i < f then Full else Empty)
  {
    Repeat(Full, f) + Repeat(Empty, BarCells - f)
  }

  /** What one callback does with the status message. */
  datatype Projection =
    | Skip                        // throttled: returns before any computation
    | Edit(filled: int, bar: string)
    | DivisionByZero              // `current * 100 / total` raises for an empty file

  /** One call of the callback. */
  function Project(now: int, start: int, current: int, total: int): (p: Projection)
    ensures p.Skip? <==> Suppressed(now, start, current, total)
    ensures p.DivisionByZero? <==> !Suppressed(now, start, current, total) && total == 0
    ensures p.Edit? ==> total != 0 && p.bar == Bar(p.filled)
    ensures p.Edit? && total > 0 ==> p.filled * total <= current * 10 < p.filled * total + total
  {
    if Suppressed(now, start, current, total) then Skip
    else if total == 0 then DivisionByZero
    else Edit(Filled(current, total), Bar(Filled(current, total)))
  }

  /** A completed transfer is never throttled, and neither is any callback
      made three seconds or more after the upload started. */
  lemma NeverSuppressed(now: int, start: int, current: int, total: int)
    requires current >= total || now - start >= ThrottleMillis
    ensures !Project(now, start, current, total).Skip?
  {
  }

  /** Multiplying by a non-negative factor keeps `<=`. */
  lemma MulLe(a: int, b: int, t: int)
    requires a <= b && t >= 0
    ensures a * t <= b * t
  {
    assert b * t - a * t == (b - a) * t;
  }

  /** A positive factor can be cancelled from `<`. */
  lemma MulLtCancel(a: int, b: int, t: int)
    requires t > 0 && a * t < b * t
    ensures a < b
  {
    assert (b - a) * t == b * t - a * t;
  }

  /** The fill is the floor of the real quotient `current * 10 / total`:
      the unique `f` with `f * total <= current * 10 < (f + 1) * total`. */
  lemma FilledIsFloor(current: int, total: int, f: int)
    requires total > 0
    requires f * total <= current * 10 < (f + 1) * total
    ensures Filled(current, total) == f
  {
    var g := Filled(current, total);
    assert (g + 1) * total == g * total + total;
    MulLtCancel(f, g + 1, total);
    MulLtCancel(g, f + 1, total);
  }

  /** For an in-range transfer the fill lies in 0..10 and reaches 10
      exactly at completion. */
  lemma FilledBounds(current: int, total: int)
    requires 0 <= current <= total && total > 0
    ensures Filled(current, total) * total <= current * 10 < (Filled(current, total) + 1) * total
    ensures 0 <= Filled(current, total) <= BarCells
    ensures Filled(current, total) == BarCells <==> current == total
  {
    var f := Filled(current, total);
    assert (f + 1) * total == f * total + total;
    MulLtCancel(0, f + 1, total);
    assert f * total <= BarCells * total;
    MulLtCancel(f, BarCells + 1, total);
    if current == total {
      MulLtCancel(BarCells, f + 1, total);
    }
  }

  /** The fill equals "percentage rounded down to a multiple of ten":
      `(current * 100 // total) // 10`. */
  lemma FilledIsPercentDecade(current: int, total: int)
    requires total > 0
    ensures Filled(current, total) == FloorDiv(FloorDiv(current * 100, total), 10)
  {
    var p := FloorDiv(current * 100, total);
    var g := FloorDiv(p, 10);
    MulLe(10 * g, p, total);
    assert g * total * 10 <= current * 10 * 10;
    MulLe(p + 1, 10 * g + 10, total);
    assert current * 10 * 10 < (g + 1) * total * 10;
    FilledIsFloor(current, total, g);
  }

  /** More bytes transferred never shrinks the bar. */
  lemma FilledMonotonic(c1: int, c2: int, total: int)
    requires c1 <= c2 && total > 0
    ensures Filled(c1, total) <= Filled(c2, total)
  {
    var f1, f2 := Filled(c1, total), Filled(c2, total);
    assert (f2 + 1) * total == f2 * total + total;
    MulLtCancel(f1, f2 + 1, total);
  }

  /** For an in-range transfer the bar has exactly ten cells, cell `i` is
      full iff `i` is below the fill, and the bar is all full iff the
      transfer is complete. */
  lemma BarShape(current: int, total: int)
    requires 0 <= current <= total && total > 0
    ensures var b := Bar(Filled(current, total));
      && |b| == BarCells
      && (forall i :: 0 <= i < |b| ==> (b[i] == Full <==> i < Filled(current, total)))
      && (forall i :: 0 <= i < |b| ==> b[i] == (if i < Filled(current, total) then Full else Empty))
      && (b == Repeat(Full, BarCells) <==> current == total)
  {
    FilledBounds(current, total);
    var f := Filled(current, total);
    var b := Bar(f);
    if f < BarCells {
      assert b[BarCells - 1] == Empty;
    }
  }

  /** Past completion (`current > total`) the bar is only full cells, ten or more. */
  lemma BarOverflow(current: int, total: int)
    requires current > total > 0
    ensures var b := Bar(Filled(current, total));
      |b| >= BarCells && forall i :: 0 <= i < |b| ==> b[i] == Full
  {
    var f := Filled(current, total);
    assert (f + 1) * total == f * total + total;
    MulLtCancel(BarCells, f + 1, total);
  }

  /** One progress callback as the transport delivers it. */
  datatype Callback = Callback(now: int, current: int, total: int)

  /** The callbacks of one upload that get past the throttle. */
  function Unthrottled(start: int, trace: seq<Callback>): (r: seq<Callback>)
    ensures |r| <= |trace|
    ensures forall k :: 0 <= k < |r| ==> r[k] in trace && !Suppressed(r[k].now, start, r[k].current, r[k].total)
    ensures forall c :: c in trace && !Suppressed(c.now, start, c.current, c.total) ==> c in r
  {
    if |trace| == 0 then []
    else
      var rest := Unthrottled(start, trace[1..]);
      var c := trace[0];
      if Suppressed(c.now, start, c.current, c.total) then rest else [c] + rest
  }

  /** Once three seconds have passed since the upload started, EVERY callback
      edits the message: the throttle spaces nothing after that point. */
  lemma {:induction false} LateCallbacksAllPass(start: int, trace: seq<Callback>)
    requires forall k :: 0 <= k < |trace| ==> trace[k].now - start >= ThrottleMillis
    ensures Unthrottled(start, trace) == trace
  {
    if |trace| > 0 {
      LateCallbacksAllPass(start, trace[1..]);
    }
  }

  /** Two callbacks in the same millisecond, after the first three seconds,
      both get through. */
  lemma BurstAfterThreshold(start: int, t: int, c1: int, c2: int, total: int)
    requires t - start >= ThrottleMillis
    ensures |Unthrottled(start, [Callback(t, c1, total), Callback(t, c2, total)])| == 2
  {
    LateCallbacksAllPass(start, [Callback(t, c1, total), Callback(t, c2, total)]);
  }
}

=== FILE: sessions.dfy ===
/** The session store and the link handler (`receive_link`): a
    process-wide map from user id to the last URL that user sent, written
    only for text containing "http" and only after the metadata probe
    succeeded. */
module Sessions {
  import opened Wrappers
  import opened Text
  import opened Modes
  import Clock

  type UserId = int

  /** `user_sessions`. */
  type Store = map<UserId, string>

  /** The substring that makes a message a link. */
  const UrlMarker := "http"

  /** Title shown when the probe reports none. */
  const DefaultProbeTitle := "Video"


  /** What the metadata probe (`extract_info(url, download=False)`) gave:
      it raised, or it reported an info dictionary whose title and duration
      keys may each be missing or hold None. */
  datatype ProbeOutcome =
    | ProbeRaised(message: string)
    | ProbeInfo(title: Field<string>, duration: Field<int>)

  /** The handler's visible answer. */
  datatype LinkReply =
    | Ignored                                                     // not a link: no reply at all
    | ChooseFormat(title: string, duration: string, choices: seq<string>)
    | ProbeFailed(message: string)

  datatype Linked = Linked(store: Store, reply: LinkReply)

  /** `user_sessions.get(user)`. */
  function Lookup(store: Store, user: UserId): (r: Option<string>)
    ensures r.Some? <==> user in store
    ensures r.Some? ==> r.value == store[user]
  {
    if user in store then Some(store[user]) else None
  }

  /** The URL the format handler proceeds with: the stored one, unless it is
      missing or empty (`if not url`), in which case the session counts as expired. */
  function SessionUrl(store: Store, user: UserId): (r: Option<string>)
    ensures r.Some? ==> Lookup(store, user) == r && r.value != ""
    ensures r.None? ==> Lookup(store, user).None? || Lookup(store, user) == Some("")
  {
    match Lookup(store, user)
    case None => None
    case Some(url) => if url == "" then None else Some(url)
  }

  /** Every stored URL contains the link marker (so none is empty). */
  predicate WellFormed(store: Store) {
    forall u :: u in store ==> Contains(store[u], UrlMarker)
  }

  /** `receive_link` for one delivered text message from `user`; `probe` is
      what the probe would report for `text` and is consulted only when the
      text contains "http". */
  function ReceiveLink(store: Store, user: UserId, text: string, probe: ProbeOutcome): (r: Linked)
    ensures r.reply.Ignored? <==> !Contains(text, UrlMarker)
    ensures r.reply.ProbeFailed? <==> Contains(text, UrlMarker) && probe.ProbeRaised?
    ensures r.reply.ChooseFormat? ==> r.store.Keys == store.Keys + {user} && r.store[user] == text
    ensures r.reply.ChooseFormat? ==> r.reply.choices == [VideoTag, AudioTag]
    ensures r.reply.ChooseFormat? ==> probe.ProbeInfo? && r.reply.duration == Clock.FormatTime(probe.duration.Get(0))
    ensures r.reply.ChooseFormat? && probe.title.Present? ==> r.reply.title == probe.title.value
    ensures r.reply.ChooseFormat? && probe.title.Missing? ==> r.reply.title == DefaultProbeTitle
    ensures r.reply.ChooseFormat? && probe.title.Null? ==> r.reply.title == "None"
    ensures r.reply.ProbeFailed? ==> r.reply.message == probe.message
    ensures forall u :: u != user ==> Lookup(r.store, u) == Lookup(store, u)
    ensures !r.reply.ChooseFormat? ==> r.store == store
  {
    if !Contains(text, UrlMarker) then Linked(store, Ignored)
    else
      match probe
      case ProbeRaised(msg) => Linked(store, ProbeFailed(msg))
      case ProbeInfo(title, duration) =>
        Linked(store[user := text],
               ChooseFormat(ShowText(title.Get(DefaultProbeTitle)), Clock.FormatTime(duration.Get(0)),
                            [VideoTag, AudioTag]))
  }

  /** The store only ever holds links: the handler keeps `WellFormed`. */
  lemma ReceiveKeepsWellFormed(store: Store, user: UserId, text: string, probe: ProbeOutcome)
    requires WellFormed(store)
    ensures WellFormed(ReceiveLink(store, user, text, probe).store)
  {
  }

  /** In a well-formed store the "session expired" guard fires exactly for
      users without an entry. */
  lemma ExpiredIffAbsent(store: Store, user: UserId)
    requires WellFormed(store)
    ensures SessionUrl(store, user).None? <==> user !in store
  {
    if user in store {
      var i: nat :| OccursAt(store[user], UrlMarker, i);
    }
  }

  /** A successful link is what a later format choice will use. */
  lemma ReceiveThenSession(store: Store, user: UserId, text: string, probe: ProbeOutcome)
    requires ReceiveLink(store, user, text, probe).reply.ChooseFormat?
    ensures SessionUrl(ReceiveLink(store, user, text, probe).store, user) == Some(text)
  {
    var i: nat :| OccursAt(text, UrlMarker, i);
  }

  /** Last write wins: after two accepted links from the same user, the
      store holds the second, whatever happened in between for others. */
  lemma LastWriteWins(store: Store, user: UserId, t1: string, p1: ProbeOutcome, other: UserId,
                      t2: string, p2: ProbeOutcome, t3: string, p3: ProbeOutcome)
    requires other != user
    requires ReceiveLink(store, user, t1, p1).reply.ChooseFormat?
    requires ReceiveLink(ReceiveLink(ReceiveLink(store, user, t1, p1).store, other, t2, p2).store,
                         user, t3, p3).reply.ChooseFormat?
    ensures var s1 := ReceiveLink(store, user, t1, p1).store;
      var s2 := ReceiveLink(s1, other, t2, p2).store;
      var s3 := ReceiveLink(s2, user, t3, p3).store;
      Lookup(s1, user) == Some(t1) && Lookup(s2, user) == Some(t1) && Lookup(s3, user) == Some(t3)
  {
  }

  /** A message that is ignored, or whose probe fails, leaves an earlier
      link of the same user in place. */
  lemma RejectedKeepsEarlier(store: Store, user: UserId, text: string, probe: ProbeOutcome)
    requires !Contains(text, UrlMarker) || probe.ProbeRaised?
    ensures ReceiveLink(store, user, text, probe).store == store
    ensures Lookup(ReceiveLink(store, user, text, probe).store, user) == Lookup(store, user)
  {
  }
}

=== FILE: text.dfy ===
/** The few string primitives the bot relies on: Python's `sub in s`,
    `str.rfind` and `c * n`. Strings are sequences of characters. */
module Text {

  /** `sub` occurs in `s` starting at position `i`. */
  predicate OccursAt(s: string, sub: string, i: nat) {
    i + |sub| <= |s| && s[i..i + |sub|] == sub
  }

  /** Shifting the haystack by one character shifts every occurrence by one. */
  lemma OccursAtTail(s: string, sub: string, i: nat)
    requires |s| > 0
    ensures OccursAt(s[1..], sub, i) <==> OccursAt(s, sub, i + 1)
  {
    if i + |sub| <= |s[1..]| {
      assert s[1..][i..i + |sub|] == s[i + 1..i + 1 + |sub|];
    }
  }

  /** Python's `sub in s`: true exactly when some position of `s` starts an
      occurrence of `sub` (the empty string occurs everywhere). */
  function Contains(s: string, sub: string): (r: bool)
    ensures r <==> exists i: nat :: OccursAt(s, sub, i)
    decreases |s|
  {
    if |sub| > |s| then
      assert forall i: nat :: !OccursAt(s, sub, i);
      false
    else if s[..|sub|] == sub then
      assert OccursAt(s, sub, 0);
      true
    else
      assert !OccursAt(s, sub, 0);
      assert forall i: nat :: OccursAt(s[1..], sub, i) <==> OccursAt(s, sub, i + 1) by {
        forall i: nat ensures OccursAt(s[1..], sub, i) <==> OccursAt(s, sub, i + 1) {
          OccursAtTail(s, sub, i);
        }
      }
      assert (exists i: nat :: OccursAt(s, sub, i)) ==> exists i: nat :: OccursAt(s[1..], sub, i) by {
        if exists i: nat :: OccursAt(s, sub, i) {
          var i: nat :| OccursAt(s, sub, i);
          assert i > 0;
          assert OccursAt(s[1..], sub, i - 1);
        }
      }
      Contains(s[1..], sub)
  }

  /** Python's `s.rfind(c)`: the index of the last `c` in `s`, or -1. */
  function LastIndexOf(s: string, c: char): (r: int)
    ensures -1 <= r < |s|
    ensures 0 <= r ==> s[r] == c
    ensures forall j :: r < j < |s| ==> s[j] != c
  {
    if |s| == 0 then -1
    else if s[|s| - 1] == c then |s| - 1
    else LastIndexOf(s[..|s| - 1], c)
  }

  /** Appending characters other than `c` does not move the last `c`. */
  lemma {:induction false} LastIndexOfAppend(a: string, b: string, c: char)
    requires c !in b
    ensures LastIndexOf(a + b, c) == LastIndexOf(a, c)
  {
    if |b| > 0 {
      var s := a + b;
      assert s[|s| - 1] == b[|b| - 1];
      assert s[..|s| - 1] == a + b[..|b| - 1];
      LastIndexOfAppend(a, b[..|b| - 1], c);
    } else {
      assert a + b == a;
    }
  }

  /** The last `c` of `a + [c] + b`, when `b` holds no `c`, is the one between them. */
  lemma LastIndexOfSeparator(a: string, c: char, b: string)
    requires c !in b
    ensures LastIndexOf(a + [c] + b, c) == |a|
  {
    LastIndexOfAppend(a + [c], b, c);
    assert (a + [c])[|a|] == c;
  }

  /** Python's `c * n` for a one-character string: `n` copies of `c`, and
      the empty string when `n` is zero or negative. */
  function Repeat(c: char, n: int): (r: string)
    ensures |r| == if n <= 0 then 0 else n
    ensures forall i :: 0 <= i < |r| ==> r[i] == c
    decreases n
  {
    if n <= 0 then "" else [c] + Repeat(c, n - 1)
  }
}

=== FILE: wrappers.dfy ===
/** Optional values: the bot's `None`-or-value fields (a missing dictionary
    entry, an absent thumbnail, a missing metadata key). */
module Wrappers {

  datatype Option<+T> = None | Some(value: T) {

    /** None or a value, defaulting on None: the value in Some, or `default` when None. */
    function GetOr(default: T): (r: T)
      ensures Some? ==> r == value
      ensures None? ==> r == default
    {
      match this
      case Some(v) => v
      case None => default
    }
  }

  /** A metadata dictionary entry: the key is missing, present with the
      value None, or present with a value. */
  datatype Field<+T> = Missing | Null | Present(value: T) {

    /** Python's `d.get(key, default)`: the default only for a missing key;
        a key present with None gives None. */
    function Get(default: T): (r: Option<T>)
      ensures Missing? ==> r == Some(default)
      ensures Null? ==> r.None?
      ensures Present? ==> r == Some(value)
    {
      match this
      case Missing => Some(default)
      case Null => None
      case Present(v) => Some(v)
    }
  }

  /** Python's `str(x)` for an optional string, as an f-string shows it:
      None is shown as the text "None". */
  function ShowText(x: Option<string>): (r: string)
    ensures x.Some? ==> r == x.value
    ensures x.None? ==> r == "None"
  {
    match x
    case Some(s) => s
    case None => "None"
  }
}
